=== FILE: README.md ===
# queuectl core in Dafny

queuectl is a single-node work queue that persists its state in one JSON file.
Producers enqueue shell commands as jobs. Worker processes claim pending jobs and run
them. A failed job is retried with exponential backoff until its attempts reach a
ceiling; then it is moved to a dead-letter list (`dlq`), from which it can be requeued
or removed.

This project models the part with invariants: the `Job` record, the `JobStore` state
machine of `queue_core.py`, and one cycle of the worker loop `run_worker_loop` in
`queue_ctl.py`. It then proves properties of that model.

- `wrappers.dfy` (`Wrappers`): an `Option` type. It stands for Python's `None` and for
  a dictionary key that is absent.
- `jobs.dfy` (`Jobs`): covers the following.
  - The job object (`Job`) and its persisted dictionary (`Record`). Each key of a
    `Record` is optional.
  - The constructor's `or` defaults, `to_dict` and `from_dict`.
  - The round-trip laws between the two forms.
- `store_spec.dfy` (`StoreSpec`): covers the following.
  - The persisted aggregate `{"jobs": [...], "dlq": [...]}` as a value.
  - Each store operation as one atomic transition. Every operation in the source is one
    lock-guarded read of the whole aggregate, followed by at most one write.
  - The queries (`list_jobs`, `list_dlq`, `counts`) as functions of the aggregate.
  - Lemmas about the claim, resolve and requeue transitions, the counts, and the state
    discipline. The discipline is that `jobs` holds pending or processing records and
    `dlq` holds dead ones.
- `store.dfy` (`Store`): the class `JobStore`.
  - Its fields `jobs` and `dlq` are the persisted file.
  - `ClaimJob`, `UpdateJobAfterRun`, `RequeueDlqJob` and `GetJob` are the source's
    loops over a list. `Enqueue` and `RemoveDlqJob` assign the fields directly.
  - Each method is proved to leave the fields that a `StoreSpec` transition computes:
    `Enqueue` gives `Enqueued`, `ClaimJob` gives `Claim`, `UpdateJobAfterRun` gives
    `Resolve`, `RemoveDlqJob` gives `Without` on `dlq`, and `RequeueDlqJob` gives
    `Requeue`. `GetJob` changes nothing; its result is specified directly.
- `worker.dfy` (`Worker`): the worker loop.
  - The inputs of one cycle are a `Tick`: whether the stop file exists, what running
    the command reported, a fresh uuid and the clock.
  - The decision of one cycle (`Decide`), one cycle as a transition (`Cycle`) and a
    finite schedule of cycles (`Run`). These are specified as functions and
    implemented as methods on a `JobStore` (`RunCycle`, `RunWorkerLoop`).
  - The retry policy on its own (`Failures`), proved to agree with the loop.
  - From that, the bounded-retry and backoff properties. They hold for a job anywhere
    in `jobs`, provided no record ahead of it is pending or has its id.

## Model

| member | source | states |
|---|---|---|
| Jobs.NewJob | queue_core.py:71-78 | The state, attempts and max_retries are kept as given. A non-empty id is kept; a missing or empty one takes the fresh uuid. A given command is kept; a missing one becomes "". A non-empty timestamp is kept; a missing or empty one takes the clock. A non-empty uuid and clock give a non-empty id and timestamps. |
| Jobs.ToDict | queue_core.py:80-89 | Every key is written; id, state, attempts and max_retries carry the job's values. |
| Jobs.FromDict | queue_core.py:91-101 | A missing "state" reads as pending, a missing "attempts" as 0, "max_retries" is passed through, and a non-empty "id" is kept. |
| Jobs.RoundTrip | queue_core.py:71-101 | from_dict(to_dict(j)) == j holds exactly when no `or` fallback replaces an empty id or timestamp by a different value. Both directions are proved. |
| Jobs.RoundTripNonEmpty | queue_core.py:71-101 | A job with a non-empty id and timestamps survives writing and reading back. |
| Jobs.DictRoundTrip | queue_core.py:80-101 | A dictionary that holds every key, with a non-empty id and timestamps, is reproduced by reading it and writing it back. |
| Jobs.FromEmptyDict | queue_core.py:91-101 | An empty dictionary reads as a pending job with a fresh id, empty command, attempts 0, no max_retries and both timestamps from the clock. |
| StoreSpec.FirstPending | queue_core.py:149-150 | The index of a pending record with none before it; None exactly when no record is pending. |
| StoreSpec.FirstWithId | queue_core.py:169-172 | The index of a record with the id with none before it; None exactly when no record has the id. |
| StoreSpec.RemoveAt | queue_core.py:177 | `pop(i)`: one fewer element, and the others keep their order. |
| StoreSpec.Without | queue_core.py:199 | The filtered list keeps every record without the id, drops every record with it, and adds nothing. It is unchanged when the id is absent and strictly shorter when the id is present. A list of at most one record is kept or emptied whole. |
| StoreSpec.WithoutAppend | queue_core.py:199 | The filter distributes over concatenation. With the one-record case, this fixes the result exactly: the kept records, in their order, with their duplicates. |
| StoreSpec.Enqueued | queue_core.py:124-128 | `jobs` gains the job's dictionary at its end, the old prefix is intact, and `dlq` is untouched. |
| StoreSpec.Claimed | queue_core.py:151-153 | The claimed job is processing, stamped with the clock, and keeps the record's attempts and max_retries. |
| StoreSpec.Claim | queue_core.py:143-158 | `dlq` and the length of `jobs` are kept. The result is None exactly when no record is pending, and then nothing changes. A returned job is processing. |
| StoreSpec.Resolve | queue_core.py:160-194 | Success drops the job's record; dead-lettering drops it and appends the job, dead, to `dlq`; a retry overwrites it, or appends it when absent. `jobs` shrinks, keeps or grows by exactly what each case implies, and a failure's outcome is never lost. |
| StoreSpec.Requeue | queue_core.py:203-218 | True exactly when `dlq` holds the id. Then one record leaves `dlq` and a pending record with the id is appended to `jobs`. Otherwise nothing changes. |
| StoreSpec.CountState | queue_core.py:225-226 | The tally is at most the list's length, and it is zero exactly when no record has the state. |
| StoreSpec.CountsOf | queue_core.py:220-229 | "failed" is the length of `dlq`, "total_jobs" the length of `jobs`, and pending plus processing never exceeds the total. |
| StoreSpec.Decode | queue_core.py:133 | One job per record, the k-th read from the k-th record. |
| StoreSpec.OfState | queue_core.py:134-135 | Every kept job is in the state, and the result is no longer than the input. A list of at most one job is kept or emptied whole. |
| StoreSpec.OfStateAppend | queue_core.py:134-135 | The filter distributes over concatenation. With the one-job case, this fixes the result exactly: the jobs in the state, in their order, with their duplicates. |
| StoreSpec.OfStateMembers | queue_core.py:134-135 | A job is in the filtered list exactly when it is in the input and in the state. |
| StoreSpec.ListJobs | queue_core.py:130-136 | Without a state, the k-th listed job is the k-th record read as a job, one per record. With a state, every listed job is in it and every record read in that state is listed. |
| StoreSpec.ListJobsFilters | queue_core.py:130-136 | Listing with a state is the unfiltered list, filtered by that state, so order and duplicates follow the file. |
| StoreSpec.ListDlq | queue_core.py:138-141 | The k-th listed job is the k-th dead-letter record read as a job, one per record. It has the record's state and, when the record has one, its non-empty id. |
| StoreSpec.PendingPlusProcessing | queue_core.py:225-229 | Pending and processing tallies together never exceed the number of records. |
| StoreSpec.ClaimCounts | queue_core.py:143-158 | A claim moves exactly one record from pending to processing, or changes no count. |
| StoreSpec.RequeueCounts | queue_core.py:203-218 | A successful requeue lowers "failed" by one and raises pending and the total by one. A failed one changes no count. |
| StoreSpec.ListJobsMatchesCounts | queue_core.py:130-136 | When every record has a "state" key, `list_jobs("pending")` and `list_jobs("processing")` have the lengths `counts()` reports. |
| StoreSpec.ListJobsCountsMissingState | queue_core.py:133-135 | A record without a "state" key is listed as pending, because `from_dict` defaults it, but is not counted as pending by `counts()`. |
| StoreSpec.ClaimTakesFirstPending | queue_core.py:149-157 | The claim takes the lowest-index pending record, rewrites it at the same index and changes nothing else. |
| StoreSpec.ClaimedRecord | queue_core.py:151-155 | For a record with every key, the written-back record differs only in state (processing) and update time. |
| StoreSpec.ClaimNeverRepeats | queue_core.py:143-158 | A claimed record is no longer pending, and the next claim takes a record strictly further along or none. |
| StoreSpec.OnePendingClaimedOnce | queue_core.py:143-158 | With exactly one pending record, the first of two claims gets it and the second gets nothing. |
| StoreSpec.ResolveFound | queue_core.py:168-190 | When a record has the job's id, resolve removes or overwrites the first such record, at its index. |
| StoreSpec.ResolveAbsent | queue_core.py:174-192 | When no record has the id, success changes nothing. Dead-lettering leaves `jobs` alone. A retry appends the job. |
| StoreSpec.RequeueFound | queue_core.py:206-215 | Requeue revives the first dead-letter record with the id: it leaves `dlq` and is appended to `jobs` pending, with its attempts unchanged. |
| StoreSpec.EnqueuePreservesDiscipline | queue_core.py:124-128 | Enqueuing a pending job keeps `jobs` pending or processing and `dlq` dead. |
| StoreSpec.ClaimPreservesDiscipline | queue_core.py:143-158 | A claim keeps the discipline. |
| StoreSpec.ResolvePreservesDiscipline | queue_core.py:160-194 | A resolve keeps the discipline when a retried job is pending or processing. |
| StoreSpec.RequeuePreservesDiscipline | queue_core.py:203-218 | A requeue keeps the discipline. |
| StoreSpec.RemovePreservesDiscipline | queue_core.py:196-201 | Removing dead-letter records keeps the discipline. |
| Store.JobStore.constructor | queue_core.py:105-114 | The store opens on the persisted aggregate, or on empty lists when there is no file yet. |
| Store.JobStore.Enqueue | queue_core.py:124-128 | The new fields are `Enqueued` of the old ones. |
| Store.JobStore.ClaimJob | queue_core.py:143-158 | The scan for the first pending record leaves the fields and result that `Claim` computes. |
| Store.JobStore.UpdateJobAfterRun | queue_core.py:160-194 | The scan for the job's id and the three branches leave the fields `Resolve` computes. |
| Store.JobStore.RemoveDlqJob | queue_core.py:196-201 | `jobs` is unchanged and `dlq` becomes `Without(dlq, id)`. |
| Store.JobStore.RequeueDlqJob | queue_core.py:203-218 | The scan, pop and append leave the fields and answer `Requeue` computes. |
| Store.JobStore.GetJob | queue_core.py:231-237 | None exactly when neither list holds the id. Otherwise it is the first record with the id in `jobs`, read as a job, and a record in `dlq` only when `jobs` has none. |
| Worker.Ceiling | queue_ctl.py:44 | The ceiling is the job's max_retries unless that is None, and then the configured default. |
| Worker.Pow | queue_ctl.py:69 | `base ** e` is at least 1 for a base of at least 1. |
| Worker.PowStep | queue_ctl.py:69 | `base ** (e + 1)` is `base` times `base ** e`. |
| Worker.Decide | queue_ctl.py:55-74 | Success marks the job completed and keeps its attempts. A failure adds one attempt. The job is dead-lettered exactly when it failed and its attempts reach the ceiling. Otherwise it is retried, pending, after `base ** (attempts - 1)`. Every verdict stamps the job with the clock. |
| Worker.Cycle | queue_ctl.py:35-74 | The stop marker changes nothing. The cycle is idle exactly when no record is pending, and then nothing changes. Only a dead-lettering cycle grows `dlq`, by one. |
| Worker.Run | queue_ctl.py:30-77 | The loop reports at most one cycle per tick. |
| Worker.RunStopsAtMarker | queue_ctl.py:35-38 | A cycle is reported stopped exactly when its tick saw the stop marker, and the loop ends at the first such tick. |
| Worker.RunCycle | queue_ctl.py:36-74 | One pass of the loop body against the store leaves the store and result that `Cycle` computes. |
| Worker.RunWorkerLoop | queue_ctl.py:30-77 | The loop over a schedule leaves the store and results that `Run` computes. |
| Worker.CycleAt | queue_ctl.py:39-73 | One cycle on a job whose record is at index i, with no earlier record pending or carrying its id: a retry overwrites the record at i, success removes it, and dead-lettering removes it and appends the job, dead, to `dlq`. The verdict is the one `Decide` gives. |
| Worker.RetriedInPlace | queue_ctl.py:60-73 | A failing cycle below the ceiling claims the job and puts it back in place, pending, with one more attempt. It reports a retry after `base ** attempts`. Nothing else changes. The job's record is anywhere in `jobs`, behind records that are neither pending nor carry its id. |
| Worker.DeadLettered | queue_ctl.py:60-66 | The failing cycle that reaches the ceiling removes the job from `jobs` and appends it, dead, to the end of `dlq`. It reports the dead-lettering, and nothing else changes. |
| Worker.Failures | queue_ctl.py:60-73 | The policy alone: a run of failures reports at most one verdict per failure. The two lists together hold the records around the job plus exactly one record for the job. |
| Worker.FailuresAgree | queue_ctl.py:30-77 | Failing cycles up to the dead-lettering one produce exactly what `Failures` computes. This holds with any records behind the job, any `dlq`, and records ahead of it that are neither pending nor carry its id. |
| Worker.FailuresBelowCeiling | queue_ctl.py:61-73 | Fewer failures than the ceiling leave the job in place, pending, with attempts increased by the number of failures. The surrounding records and `dlq` are unchanged. |
| Worker.FailuresAtCeiling | queue_ctl.py:61-66 | The failure that reaches the ceiling removes the job from `jobs` and appends it to `dlq`, dead, with attempts equal to the ceiling. The other records are unchanged. |
| Worker.FailuresVerdicts | queue_ctl.py:63-69 | One verdict per failure. The k-th is a retry after `base ** (attempts + k)`, or the dead-lettering once the ceiling is reached. |
| Worker.BoundedRetry | queue_ctl.py:60-73 | The job may sit anywhere in `jobs`, behind records that are neither pending nor carry its id. If it fails n times with a + n below the ceiling M, it stays in place, pending, with attempts a + n, and every other record and `dlq` are unchanged. When a + n reaches M, it is removed from `jobs` and appended to `dlq`, dead, with attempts M. When M <= a + 1, including M <= 0, the first failure dead-letters it. |
| Worker.BackoffDelays | queue_ctl.py:68-69 | Under the same placement, the backoff delays of consecutive failures are 1, b, b^2, ... from a new job, one per failure. The last is the dead-lettering at the ceiling. |
| Worker.BackoffGrows | queue_ctl.py:68-69 | Each retry of the job waits `base` times longer than the one before. |
| Worker.TwoFailuresWithCeilingTwo | queue_ctl.py:60-66 | A new job with max_retries 2 failing twice is dead with attempts 2 and absent from `jobs`. |
| Worker.OneFailureWithCeilingThree | queue_ctl.py:67-73 | A new job with max_retries 3 failing once is pending with attempts 1, and the worker sleeps 1. |
| Worker.SuccessForgetsJob | queue_ctl.py:55-58 | A job whose command succeeds is removed from `jobs`, leaves no trace in `dlq`, and the records around it are unchanged. The job sits behind records that are neither pending nor carry its id. |
| Worker.CyclePreservesDiscipline | queue_ctl.py:35-74 | A cycle keeps `jobs` pending or processing and `dlq` dead. |

## Left out

- `file_lock` (queue_core.py:21-45) and its timeout: every store operation is one atomic transition, so mutual exclusion between workers is assumed, not modelled.
- `Worker.Cycle`: the worker is modelled as alone on the store, with its claim and its resolve acting as one step. In the source they are two separately locked operations, `claim_job` (queue_ctl.py:39, queue_core.py:147) and `update_job_after_run` (queue_ctl.py:58, 66 and 73, queue_core.py:165). The command runs between them with no lock held (queue_ctl.py:49). In that window, and between cycles, other workers, `enqueue` and the dead-letter commands can write to the store. So the "nothing else changes" clauses of `RetriedInPlace`, `DeadLettered`, `SuccessForgetsJob`, `FailuresAgree` and `BoundedRetry` hold only when no other process writes. `Cycle` never reaches the branches of `update_job_after_run` where the id is absent (queue_core.py:182-186 and 191-192), which guard against such concurrent changes. Those branches are modelled in `StoreSpec.Resolve` and stated by `StoreSpec.ResolveAbsent`.
- Persistence to disk: the JSON reading and writing, `_init_file`, crash mid-write, and a file lacking the "jobs" or "dlq" key. The aggregate always has both lists.
- `load_config`, `save_workers` and `load_workers` are outside the core. `max_retries` and `backoff_base` are parameters.
- `uuid.uuid4()` and `now_iso()` are inputs (`freshId`, `now`, and `ids` for list decoding).
- One clock reading per store operation: `now` stands for every `now_iso()` call within one operation. The constructor reads the clock separately for `created_at` and `updated_at` (queue_core.py:77 and queue_core.py:78). `list_jobs`, `list_dlq` and `get_job` run `from_dict` once per record (queue_core.py:133, queue_core.py:141 and queue_core.py:236), each with its own clock reads. In the source these stamps can differ when the clock ticks between reads.
- `Jobs.FromEmptyDict`: its equal `created_at` and `updated_at` follow from the single `now`; the source does not guarantee them equal, for the reason above.
- One clock reading per worker cycle: `Tick.now` stands for the claim's stamp (queue_core.py:153), the worker's stamps after the run (queue_ctl.py:57 and queue_ctl.py:62) and the dead-letter stamp (queue_core.py:185). The source reads the clock at each of these points, so its stamps can differ within one cycle.
- The command run by `subprocess.run`, the stop-file check, `time.sleep` and `KeyboardInterrupt` are inputs of a `Tick`. Sleeps are reported as an `Idle` result or a `Retry(delay)`, not slept.
- `Worker.Run`: the `while True` loop is modelled over a finite schedule of ticks, so runs that never stop are not captured.
- `worker_start`, `worker_stop`, the rest of the command-line interface, and output printing are not part of this model.
- JSON values of the wrong type are not modelled. A "state" outside the five known names, a negative or non-integer "attempts", and a JSON null for any key other than "max_retries" are all left out.
- `backoff_base` is a natural number; a fractional base from the config file is not modelled.
- `Store.JobStore.UpdateJobAfterRun`: the source also sets the caller's job object to dead when dead-lettering. The caller discards that object, so only the persisted effect is modelled.
- Id uniqueness across `jobs` and `dlq` is not an invariant. The source does not enforce it: `requeue_dlq_job` appends without checking `jobs`, and `enqueue` does not check either list. Lookups act on the first record with the id.
- `requeue_dlq_job` on a matched but empty record: a record that matches an id always has an "id" key, so `if match` is always true here. A `None` id is not modelled.
- `Worker.BoundedRetry`: states the outcome only for schedules of failing cycles that end no later than the dead-lettering one. Later cycles may claim other records; this is not stated.
- `Worker.BoundedRetry`: the job must be the first pending record, with no earlier record carrying its id. When another pending record comes first, the worker claims that one instead, so the retry sequence of this job interleaves with other jobs; that interleaving is not stated.

=== FILE: jobs.dfy ===
/**
 * The `Job` record of queue_core.py: its constructor defaults, its dictionary
 * form (`to_dict`) and the way a dictionary is read back (`from_dict`).
 */
module Jobs {
  import opened Wrappers

  /** The values the "state" key takes. The store never persists `Completed` or `Failed`. */
  datatype State = Pending | Processing | Completed | Failed | Dead

  /** A job object in memory. */
  datatype Job = Job(
    id: string,
    command: string,
    state: State,
    attempts: nat,
    maxRetries: Option<int>,
    createdAt: string,
    updatedAt: string)

  /**
   * A persisted job dictionary. `None` is an absent key; for "max_retries" it also
   * stands for JSON null, which `dict.get` does not tell apart from an absent key.
   */
  datatype Record = Record(
    id: Option<string>,
    command: Option<string>,
    state: Option<State>,
    attempts: Option<nat>,
    maxRetries: Option<int>,
    createdAt: Option<string>,
    updatedAt: Option<string>)

  /** Python's `x or fallback` for a string argument that may be None: None and "" are both falsy. */
  function Or(x: Option<string>, fallback: string): string {
    if x.Some? && x.value != "" then x.value else fallback
  }

  /** Every key that `to_dict` writes is present. */
  predicate HasAllKeys(d: Record) {
    d.id.Some? && d.command.Some? && d.state.Some? && d.attempts.Some? &&
    d.createdAt.Some? && d.updatedAt.Some?
  }

  /**
   * `Job(id=..., command=..., ...)`. `freshId` stands for `uuid.uuid4().hex` and
   * `now` for `now_iso()`; they are used only when the argument is missing or empty.
   */
  function NewJob(id: Option<string>, command: Option<string>, state: State, attempts: nat,
                  maxRetries: Option<int>, createdAt: Option<string>, updatedAt: Option<string>,
                  freshId: string, now: string): (j: Job)
    ensures j.state == state && j.attempts == attempts && j.maxRetries == maxRetries
    ensures id.Some? && id.value != "" ==> j.id == id.value
    ensures id.None? || id.value == "" ==> j.id == freshId
    ensures command.Some? ==> j.command == command.value
    ensures command.None? ==> j.command == ""
    ensures createdAt.Some? && createdAt.value != "" ==> j.createdAt == createdAt.value
    ensures createdAt.None? || createdAt.value == "" ==> j.createdAt == now
    ensures updatedAt.Some? && updatedAt.value != "" ==> j.updatedAt == updatedAt.value
    ensures updatedAt.None? || updatedAt.value == "" ==> j.updatedAt == now
    ensures freshId != "" ==> j.id != ""
    ensures now != "" ==> j.createdAt != "" && j.updatedAt != ""
  {
    Job(Or(id, freshId), Or(command, ""), state, attempts, maxRetries,
        Or(createdAt, now), Or(updatedAt, now))
  }

  /** `Job.to_dict`: every key is written, "max_retries" possibly as null. */
  function ToDict(j: Job): (d: Record)
    ensures HasAllKeys(d)
    ensures d.id == Some(j.id) && d.state == Some(j.state) && d.attempts == Some(j.attempts)
    ensures d.maxRetries == j.maxRetries
  {
    Record(Some(j.id), Some(j.command), Some(j.state), Some(j.attempts), j.maxRetries,
           Some(j.createdAt), Some(j.updatedAt))
  }

  /** `Job.from_dict`: a missing "state" reads as pending, a missing "attempts" as 0. */
  function FromDict(d: Record, freshId: string, now: string): (j: Job)
    ensures d.state.None? ==> j.state == Pending
    ensures d.state.Some? ==> j.state == d.state.value
    ensures d.attempts.None? ==> j.attempts == 0
    ensures d.attempts.Some? ==> j.attempts == d.attempts.value
    ensures j.maxRetries == d.maxRetries
    ensures d.id.Some? && d.id.value != "" ==> j.id == d.id.value
  {
    NewJob(d.id, d.command, d.state.GetOr(Pending), d.attempts.GetOr(0), d.maxRetries,
           d.createdAt, d.updatedAt, freshId, now)
  }

  /**
   * The round-trip law, both directions: reading back a written job gives the same
   * job exactly when none of the `or` fallbacks replaces an empty string by a
   * different value.
   */
  lemma RoundTrip(j: Job, freshId: string, now: string)
    ensures FromDict(ToDict(j), freshId, now) == j <==>
      (j.id == "" ==> freshId == "") &&
      (j.createdAt == "" ==> now == "") &&
      (j.updatedAt == "" ==> now == "")
  {
    var k := FromDict(ToDict(j), freshId, now);
    if j.id == "" && freshId != "" {
      assert k.id != j.id;
    }
    if j.createdAt == "" && now != "" {
      assert k.createdAt != j.createdAt;
    }
    if j.updatedAt == "" && now != "" {
      assert k.updatedAt != j.updatedAt;
    }
  }

  /** The usual case: a job with a non-empty id and timestamps survives a round trip. */
  lemma RoundTripNonEmpty(j: Job, freshId: string, now: string)
    requires j.id != "" && j.createdAt != "" && j.updatedAt != ""
    ensures FromDict(ToDict(j), freshId, now) == j
  {
    RoundTrip(j, freshId, now);
  }

  /**
   * The other direction: a dictionary holding every key, with non-empty id and
   * timestamps, is reproduced by reading it and writing it back.
   */
  lemma DictRoundTrip(d: Record, freshId: string, now: string)
    requires HasAllKeys(d)
    requires d.id.value != "" && d.createdAt.value != "" && d.updatedAt.value != ""
    ensures ToDict(FromDict(d, freshId, now)) == d
  {
  }

  /** An empty dictionary reads as a fresh pending job with no failures. */
  lemma FromEmptyDict(freshId: string, now: string)
    ensures FromDict(Record(None, None, None, None, None, None, None), freshId, now)
         == Job(freshId, "", Pending, 0, None, now, now)
  {
  }
}

=== FILE: store.dfy ===
/**
 * `JobStore` of queue_core.py. The persisted file is the two fields `jobs` and
 * `dlq`; each method is the body of one lock-guarded read followed by at most
 * one write. The postconditions tie the new fields to a StoreSpec transition:
 * `Enqueue` to `Enqueued`, `ClaimJob` to `Claim`, `UpdateJobAfterRun` to `Resolve`,
 * `RemoveDlqJob` to `Without` on `dlq` and `RequeueDlqJob` to `Requeue`;
 * `GetJob` changes nothing and its answer is specified directly.
 */
module Store {
  import opened Wrappers
  import opened Jobs
  import opened StoreSpec

  class JobStore {
    var jobs: seq<Record>
    var dlq: seq<Record>

    /** The aggregate as persisted. */
    function Model(): Aggregate
      reads this
    {
      Aggregate(jobs, dlq)
    }

    /** Opens the store: the persisted aggregate, or an empty one when the file does not exist yet. */
    constructor (persisted: Option<Aggregate>)
      ensures persisted.Some? ==> Model() == persisted.value
      ensures persisted.None? ==> jobs == [] && dlq == []
    {
      match persisted
      case Some(a) =>
        jobs := a.jobs;
        dlq := a.dlq;
      case None =>
        jobs := [];
        dlq := [];
    }

    method Enqueue(job: Job)
      modifies this
      ensures Model() == Enqueued(old(Model()), job)
    {
      jobs := jobs + [ToDict(job)];
    }

    method ClaimJob(freshId: string, now: string) returns (claimed: Option<Job>)
      modifies this
      ensures (Model(), claimed) == Claim(old(Model()), freshId, now)
    {
      var idx := 0;
      while idx < |jobs|
        invariant idx <= |jobs|
        invariant jobs == old(jobs) && dlq == old(dlq)
        invariant forall k :: 0 <= k < idx ==> !IsPending(jobs[k])
      {
        if IsPending(jobs[idx]) {
          ClaimTakesFirstPending(Model(), freshId, now, idx);
          var job := FromDict(jobs[idx], freshId, now);
          job := job.(state := Processing, updatedAt := now);
          jobs := jobs[idx := ToDict(job)];
          return Some(job);
        }
        idx := idx + 1;
      }
      return None;
    }

    method UpdateJobAfterRun(job: Job, success: bool, moveToDlq: bool, now: string)
      modifies this
      ensures Model() == Resolve(old(Model()), job, success, moveToDlq, now)
    {
      var found: Option<nat> := None;
      var idx := 0;
      while idx < |jobs|
        invariant idx <= |jobs|
        invariant found.None?
        invariant forall k :: 0 <= k < idx ==> !HasId(jobs[k], job.id)
      {
        if HasId(jobs[idx], job.id) {
          found := Some(idx);
          break;
        }
        idx := idx + 1;
      }
      assert found == FirstWithId(jobs, job.id) by {
        if found.Some? {
          ResolveFound(Model(), job, success, moveToDlq, now, found.value);
        }
      }
      if success {
        if found.Some? {
          jobs := RemoveAt(jobs, found.value);
        }
      } else if moveToDlq {
        if found.Some? {
          jobs := RemoveAt(jobs, found.value);
        }
        var dead := job.(state := Dead, updatedAt := now);
        dlq := dlq + [ToDict(dead)];
      } else {
        if found.Some? {
          jobs := jobs[found.value := ToDict(job)];
        } else {
          jobs := jobs + [ToDict(job)];
        }
      }
    }

    method RemoveDlqJob(jobId: string)
      modifies this
      ensures jobs == old(jobs) && dlq == Without(old(dlq), jobId)
    {
      dlq := Without(dlq, jobId);
    }

    method RequeueDlqJob(jobId: string, now: string) returns (ok: bool)
      modifies this
      ensures (Model(), ok) == Requeue(old(Model()), jobId, now)
    {
      var found: Option<Record> := None;
      var idx := 0;
      while idx < |dlq|
        invariant idx <= |dlq|
        invariant found.None? && dlq == old(dlq) && jobs == old(jobs)
        invariant forall k :: 0 <= k < idx ==> !HasId(dlq[k], jobId)
      {
        if HasId(dlq[idx], jobId) {
          RequeueFound(Model(), jobId, now, idx);
          found := Some(dlq[idx]);
          dlq := RemoveAt(dlq, idx);
          break;
        }
        idx := idx + 1;
      }
      if found.Some? {
        var revived := found.value.(state := Some(Pending), updatedAt := Some(now));
        jobs := jobs + [revived];
        return true;
      }
      return false;
    }

    /**
     * `get_job`: the first record with the id in `jobs` followed by `dlq`, read back
     * as a job, so an active record takes precedence over a dead-letter one.
     */
    method GetJob(jobId: string, freshId: string, now: string) returns (r: Option<Job>)
      ensures r.None? <==> !ContainsId(jobs, jobId) && !ContainsId(dlq, jobId)
      ensures ContainsId(jobs, jobId) ==>
        r == Some(FromDict(jobs[FirstWithId(jobs, jobId).value], freshId, now))
      ensures !ContainsId(jobs, jobId) && ContainsId(dlq, jobId) ==>
        r == Some(FromDict(dlq[FirstWithId(dlq, jobId).value], freshId, now))
    {
      var all := jobs + dlq;
      var idx := 0;
      while idx < |all|
        invariant idx <= |all|
        invariant forall k :: 0 <= k < idx ==> !HasId(all[k], jobId)
      {
        if HasId(all[idx], jobId) {
          if idx < |jobs| {
            assert forall k :: 0 <= k < |jobs| ==> all[k] == jobs[k];
            JobsFirst(jobs, jobId, idx);
          } else {
            DlqAfterJobs(jobs, dlq, jobId, idx);
          }
          return Some(FromDict(all[idx], freshId, now));
        }
        idx := idx + 1;
      }
      NotInConcat(jobs, dlq, jobId);
      return None;
    }
  }

  /** An index that has the id and is preceded by none is the one FirstWithId finds. */
  lemma JobsFirst(s: seq<Record>, id: string, i: nat)
    requires i < |s| && HasId(s[i], id)
    requires forall k :: 0 <= k < i ==> !HasId(s[k], id)
    ensures ContainsId(s, id) && FirstWithId(s, id) == Some(i)
  {
  }

  lemma DlqAfterJobs(s: seq<Record>, t: seq<Record>, id: string, i: nat)
    requires |s| <= i < |s| + |t| && HasId((s + t)[i], id)
    requires forall k :: 0 <= k < i ==> !HasId((s + t)[k], id)
    ensures !ContainsId(s, id) && ContainsId(t, id) && FirstWithId(t, id) == Some(i - |s|)
  {
    forall k | 0 <= k < |s|
      ensures !HasId(s[k], id)
    {
      assert (s + t)[k] == s[k];
    }
    forall k | 0 <= k < i - |s|
      ensures !HasId(t[k], id)
    {
      assert (s + t)[k + |s|] == t[k];
    }
    JobsFirst(t, id, i - |s|);
  }

  lemma NotInConcat(s: seq<Record>, t: seq<Record>, id: string)
    requires forall k :: 0 <= k < |s + t| ==> !HasId((s + t)[k], id)
    ensures !ContainsId(s, id) && !ContainsId(t, id)
  {
    forall k | 0 <= k < |s|
      ensures !HasId(s[k], id)
    {
      assert (s + t)[k] == s[k];
    }
    forall k | 0 <= k < |t|
      ensures !HasId(t[k], id)
    {
      assert (s + t)[k + |s|] == t[k];
    }
  }
}

=== FILE: store_spec.dfy ===
/**
 * The persisted aggregate of queue_core.py's `JobStore` as a value, and each store
 * operation as one atomic transition on it (every operation is one read of the
 * whole aggregate under the file lock, followed by at most one write).
 */
module StoreSpec {
  import opened Wrappers
  import opened Jobs

  /** The persisted aggregate `{"jobs": [...], "dlq": [...]}`. */
  datatype Aggregate = Aggregate(jobs: seq<Record>, dlq: seq<Record>)

  /** The counts reported by `counts()`. */
  datatype Counts = Counts(pending: nat, processing: nat, failed: nat, totalJobs: nat)

  /** `j.get("state") == "pending"` */
  predicate IsPending(r: Record) {
    r.state == Some(Pending)
  }

  /** `j.get("id") == id` */
  predicate HasId(r: Record, id: string) {
    r.id == Some(id)
  }

  predicate ContainsId(s: seq<Record>, id: string) {
    exists k :: 0 <= k < |s| && HasId(s[k], id)
  }

  // ---------------------------------------------------------------------------
  // Searches and list edits

  /** Position of the first pending record, the one a claim takes. */
  function FirstPending(s: seq<Record>): (r: Option<nat>)
    ensures r.Some? ==> r.value < |s| && IsPending(s[r.value])
    ensures r.Some? ==> forall k :: 0 <= k < r.value ==> !IsPending(s[k])
    ensures r.None? <==> forall k :: 0 <= k < |s| ==> !IsPending(s[k])
  {
    if |s| == 0 then None
    else if IsPending(s[0]) then Some(0)
    else match FirstPending(s[1..])
      case None => None
      case Some(i) => Some(i + 1)
  }

  /** Position of the first record carrying `id`, the one a resolve or requeue acts on. */
  function FirstWithId(s: seq<Record>, id: string): (r: Option<nat>)
    ensures r.Some? ==> r.value < |s| && HasId(s[r.value], id)
    ensures r.Some? ==> forall k :: 0 <= k < r.value ==> !HasId(s[k], id)
    ensures r.None? <==> !ContainsId(s, id)
  {
    if |s| == 0 then None
    else if HasId(s[0], id) then Some(0)
    else match FirstWithId(s[1..], id)
      case None => (assert forall k :: 1 <= k < |s| ==> s[k] == s[1..][k - 1]; None)
      case Some(i) => Some(i + 1)
  }

  /** `list.pop(i)`: the other records keep their order. */
  function RemoveAt(s: seq<Record>, i: nat): (r: seq<Record>)
    requires i < |s|
    ensures |r| == |s| - 1
    ensures forall k :: 0 <= k < i ==> r[k] == s[k]
    ensures forall k :: i <= k < |r| ==> r[k] == s[k + 1]
  {
    s[..i] + s[i + 1..]
  }

  /** The comprehension `[j for j in s if j.get("id") != id]`. */
  function Without(s: seq<Record>, id: string): (r: seq<Record>)
    ensures |r| <= |s|
    ensures forall k :: 0 <= k < |r| ==> !HasId(r[k], id)
    ensures forall x :: x in r ==> x in s
    ensures forall k :: 0 <= k < |s| && !HasId(s[k], id) ==> s[k] in r
    ensures !ContainsId(s, id) ==> r == s
    ensures ContainsId(s, id) ==> |r| < |s|
    ensures |s| <= 1 ==> r == (if |s| == 1 && !HasId(s[0], id) then s else [])
  {
    if |s| == 0 then []
    else
      var rest := Without(s[1..], id);
      assert forall k :: 1 <= k < |s| ==> s[k] == s[1..][k - 1];
      assert ContainsId(s[1..], id) ==> ContainsId(s, id) by {
        if ContainsId(s[1..], id) {
          var k :| 0 <= k < |s[1..]| && HasId(s[1..][k], id);
          assert HasId(s[k + 1], id);
        }
      }
      if HasId(s[0], id) then rest else [s[0]] + rest
  }

  // ---------------------------------------------------------------------------
  // Transitions

  /** `enqueue`: the job's dictionary is appended to `jobs`. */
  function Enqueued(a: Aggregate, job: Job): (b: Aggregate)
    ensures |b.jobs| == |a.jobs| + 1 && b.jobs[..|a.jobs|] == a.jobs
    ensures b.jobs[|a.jobs|] == ToDict(job)
    ensures b.dlq == a.dlq
  {
    a.(jobs := a.jobs + [ToDict(job)])
  }

  /** The job object a claim returns for the record it takes. */
  function Claimed(r: Record, freshId: string, now: string): (j: Job)
    ensures j.state == Processing && j.updatedAt == now
    ensures j.attempts == r.attempts.GetOr(0) && j.maxRetries == r.maxRetries
  {
    FromDict(r, freshId, now).(state := Processing, updatedAt := now)
  }

  /**
   * `claim_job`: the first pending record becomes processing in place and is
   * returned; without a pending record nothing is written and None is returned.
   */
  function Claim(a: Aggregate, freshId: string, now: string): (res: (Aggregate, Option<Job>))
    ensures res.0.dlq == a.dlq && |res.0.jobs| == |a.jobs|
    ensures res.1.None? <==> forall k :: 0 <= k < |a.jobs| ==> !IsPending(a.jobs[k])
    ensures res.1.None? ==> res.0 == a
    ensures res.1.Some? ==> res.1.value.state == Processing
  {
    match FirstPending(a.jobs)
    case None => (a, None)
    case Some(i) =>
      var job := Claimed(a.jobs[i], freshId, now);
      (a.(jobs := a.jobs[i := ToDict(job)]), Some(job))
  }

  /**
   * `update_job_after_run`: success removes the first record with the job's id;
   * dead-lettering removes it too and appends the job, marked dead, to `dlq`;
   * a retry overwrites it in place, or appends the job when no record has its id.
   */
  function Resolve(a: Aggregate, job: Job, success: bool, moveToDlq: bool, now: string): (b: Aggregate)
    ensures success ==> b.dlq == a.dlq
    ensures !success && moveToDlq ==> b.dlq == a.dlq + [ToDict(job.(state := Dead, updatedAt := now))]
    ensures !success && !moveToDlq ==> b.dlq == a.dlq && ToDict(job) in b.jobs
    ensures success || moveToDlq ==>
      |b.jobs| == (if ContainsId(a.jobs, job.id) then |a.jobs| - 1 else |a.jobs|)
    ensures !success && !moveToDlq ==>
      |b.jobs| == (if ContainsId(a.jobs, job.id) then |a.jobs| else |a.jobs| + 1)
  {
    var found := FirstWithId(a.jobs, job.id);
    assert found.Some? ==> a.jobs[found.value := ToDict(job)][found.value] == ToDict(job);
    if success then
      a.(jobs := if found.Some? then RemoveAt(a.jobs, found.value) else a.jobs)
    else if moveToDlq then
      Aggregate(if found.Some? then RemoveAt(a.jobs, found.value) else a.jobs,
                a.dlq + [ToDict(job.(state := Dead, updatedAt := now))])
    else
      a.(jobs := if found.Some? then a.jobs[found.value := ToDict(job)] else a.jobs + [ToDict(job)])
  }

  /**
   * `requeue_dlq_job`: the first dead-letter record with the id is moved to the end
   * of `jobs`, marked pending; the answer says whether one was found.
   */
  function Requeue(a: Aggregate, jobId: string, now: string): (res: (Aggregate, bool))
    ensures res.1 <==> ContainsId(a.dlq, jobId)
    ensures !res.1 ==> res.0 == a
    ensures res.1 ==> |res.0.dlq| == |a.dlq| - 1
    ensures res.1 ==> |res.0.jobs| == |a.jobs| + 1 && res.0.jobs[..|a.jobs|] == a.jobs
    ensures res.1 ==> IsPending(res.0.jobs[|a.jobs|]) && HasId(res.0.jobs[|a.jobs|], jobId)
  {
    match FirstWithId(a.dlq, jobId)
    case None => (a, false)
    case Some(i) =>
      var revived := a.dlq[i].(state := Some(Pending), updatedAt := Some(now));
      (Aggregate(a.jobs + [revived], RemoveAt(a.dlq, i)), true)
  }

  // ---------------------------------------------------------------------------
  // Queries

  /** `sum(1 for j in s if j.get("state") == st)` */
  function CountState(s: seq<Record>, st: State): (n: nat)
    ensures n <= |s|
    ensures n == 0 <==> forall k :: 0 <= k < |s| ==> s[k].state != Some(st)
  {
    if |s| == 0 then 0
    else
      assert forall k :: 1 <= k < |s| ==> s[k] == s[1..][k - 1];
      (if s[0].state == Some(st) then 1 else 0) + CountState(s[1..], st)
  }

  /** `counts()`: tallies of the current aggregate. */
  function CountsOf(a: Aggregate): (c: Counts)
    ensures c.failed == |a.dlq| && c.totalJobs == |a.jobs|
    ensures c.pending + c.processing <= c.totalJobs
  {
    PendingPlusProcessing(a.jobs);
    Counts(CountState(a.jobs, Pending), CountState(a.jobs, Processing), |a.dlq|, |a.jobs|)
  }

  /** `[Job.from_dict(j) for j in s]`; `ids(k)` is the uuid drawn for the k-th record. */
  function Decode(s: seq<Record>, ids: nat -> string, now: string): (js: seq<Job>)
    ensures |js| == |s|
    ensures forall k :: 0 <= k < |s| ==> js[k] == FromDict(s[k], ids(k), now)
  {
    seq(|s|, k requires 0 <= k < |s| => FromDict(s[k], ids(k), now))
  }

  /** `[j for j in js if j.state == st]` */
  function OfState(js: seq<Job>, st: State): (r: seq<Job>)
    ensures |r| <= |js|
    ensures forall k :: 0 <= k < |r| ==> r[k].state == st
    ensures |js| <= 1 ==> r == (if |js| == 1 && js[0].state == st then js else [])
  {
    if |js| == 0 then []
    else
      assert forall k :: 1 <= k < |js| ==> js[k] == js[1..][k - 1];
      (if js[0].state == st then [js[0]] else []) + OfState(js[1..], st)
  }

  /** `list_jobs(state)`: the decoded `jobs`, filtered by state when one is given. */
  function ListJobs(a: Aggregate, state: Option<State>, ids: nat -> string, now: string): (js: seq<Job>)
    ensures state.None? ==> |js| == |a.jobs| && forall k :: 0 <= k < |a.jobs| ==> js[k] == FromDict(a.jobs[k], ids(k), now)
    ensures state.Some? ==> forall j :: j in js ==> j.state == state.value
    ensures forall k :: 0 <= k < |a.jobs| && (state.None? || FromDict(a.jobs[k], ids(k), now).state == state.value)
              ==> FromDict(a.jobs[k], ids(k), now) in js
  {
    var all := Decode(a.jobs, ids, now);
    if state.Some? then OfStateMembers(all, state.value); OfState(all, state.value) else all
  }

  /** `list_dlq()`: the decoded dead-letter records, in order. */
  function ListDlq(a: Aggregate, ids: nat -> string, now: string): (js: seq<Job>)
    ensures |js| == |a.dlq|
    ensures forall k :: 0 <= k < |a.dlq| ==> js[k] == FromDict(a.dlq[k], ids(k), now)
    ensures forall k :: 0 <= k < |a.dlq| && a.dlq[k].state.Some? ==> js[k].state == a.dlq[k].state.value
    ensures forall k :: 0 <= k < |a.dlq| && a.dlq[k].id.Some? && a.dlq[k].id.value != "" ==>
              js[k].id == a.dlq[k].id.value
  {
    Decode(a.dlq, ids, now)
  }

  // ---------------------------------------------------------------------------
  // Lemmas: the filters keep order and duplicates

  /**
   * The dead-letter filter distributes over concatenation; with the one-record case
   * in `Without`'s contract this fixes the result: the kept records, in order, each
   * as often as in the input.
   */
  lemma {:induction false} WithoutAppend(s: seq<Record>, t: seq<Record>, id: string)
    ensures Without(s + t, id) == Without(s, id) + Without(t, id)
  {
    if |s| > 0 {
      WithoutAppend(s[1..], t, id);
      assert (s + t)[0] == s[0] && (s + t)[1..] == s[1..] + t;
      AppendAssoc([s[0]], Without(s[1..], id), Without(t, id));
    } else {
      assert s + t == t;
    }
  }

  lemma AppendAssoc<T>(a: seq<T>, b: seq<T>, c: seq<T>)
    ensures a + (b + c) == (a + b) + c
  {
  }

  /** The state filter distributes over concatenation, so it keeps order and multiplicity. */
  lemma {:induction false} OfStateAppend(xs: seq<Job>, ys: seq<Job>, st: State)
    ensures OfState(xs + ys, st) == OfState(xs, st) + OfState(ys, st)
  {
    if |xs| == 0 {
      assert xs + ys == ys;
    } else {
      var head := if xs[0].state == st then [xs[0]] else [];
      var rest := OfState(xs[1..] + ys, st);
      assert OfState(xs + ys, st) == head + rest by {
        assert (xs + ys)[0] == xs[0] && (xs + ys)[1..] == xs[1..] + ys;
      }
      OfStateAppend(xs[1..], ys, st);
      assert OfState(xs, st) == head + OfState(xs[1..], st);
      AppendAssoc(head, OfState(xs[1..], st), OfState(ys, st));
    }
  }

  /** The state filter keeps exactly the jobs in the state: both directions of membership. */
  lemma {:induction false} OfStateMembers(js: seq<Job>, st: State)
    ensures forall j :: j in OfState(js, st) <==> j in js && j.state == st
  {
    if |js| > 0 {
      OfStateMembers(js[1..], st);
      assert js == [js[0]] + js[1..];
    }
  }

  /** `list_jobs(state)` is the unfiltered listing with the other states dropped. */
  lemma ListJobsFilters(a: Aggregate, st: State, ids: nat -> string, now: string)
    ensures ListJobs(a, Some(st), ids, now) == OfState(ListJobs(a, None, ids, now), st)
  {
  }

  // ---------------------------------------------------------------------------
  // Lemmas: counting

  lemma {:induction false} PendingPlusProcessing(s: seq<Record>)
    ensures CountState(s, Pending) + CountState(s, Processing) <= |s|
  {
    if |s| > 0 {
      PendingPlusProcessing(s[1..]);
    }
  }

  /** Overwriting one record changes a tally only by what left and what arrived. */
  lemma {:induction false} CountUpdate(s: seq<Record>, i: nat, r: Record, st: State)
    requires i < |s|
    ensures CountState(s[i := r], st) ==
      CountState(s, st) - (if s[i].state == Some(st) then 1 else 0) + (if r.state == Some(st) then 1 else 0)
  {
    if i > 0 {
      CountUpdate(s[1..], i - 1, r, st);
      assert s[i := r][1..] == s[1..][i - 1 := r];
    } else {
      assert s[i := r][1..] == s[1..];
    }
  }

  lemma {:induction false} CountAppend(s: seq<Record>, r: Record, st: State)
    ensures CountState(s + [r], st) == CountState(s, st) + (if r.state == Some(st) then 1 else 0)
  {
    if |s| > 0 {
      CountAppend(s[1..], r, st);
      assert (s + [r])[1..] == s[1..] + [r];
    }
  }

  lemma {:induction false} CountRemoveAt(s: seq<Record>, i: nat, st: State)
    requires i < |s|
    ensures CountState(RemoveAt(s, i), st) == CountState(s, st) - (if s[i].state == Some(st) then 1 else 0)
  {
    if i > 0 {
      CountRemoveAt(s[1..], i - 1, st);
      assert RemoveAt(s, i)[1..] == RemoveAt(s[1..], i - 1);
    } else {
      assert RemoveAt(s, i) == s[1..];
    }
  }

  /** A successful claim moves exactly one record from pending to processing. */
  lemma ClaimCounts(a: Aggregate, freshId: string, now: string)
    ensures var (b, r) := Claim(a, freshId, now);
      (r.None? ==> CountsOf(b) == CountsOf(a)) &&
      (r.Some? ==> CountsOf(b) == CountsOf(a).(pending := CountsOf(a).pending - 1,
                                               processing := CountsOf(a).processing + 1))
  {
    match FirstPending(a.jobs)
    case None =>
    case Some(i) =>
      var job := Claimed(a.jobs[i], freshId, now);
      CountUpdate(a.jobs, i, ToDict(job), Pending);
      CountUpdate(a.jobs, i, ToDict(job), Processing);
  }

  /** A successful requeue moves one record from the dead-letter list to pending. */
  lemma RequeueCounts(a: Aggregate, jobId: string, now: string)
    ensures var (b, ok) := Requeue(a, jobId, now);
      (!ok ==> CountsOf(b) == CountsOf(a)) &&
      (ok ==> CountsOf(b).failed == CountsOf(a).failed - 1 &&
              CountsOf(b).pending == CountsOf(a).pending + 1 &&
              CountsOf(b).processing == CountsOf(a).processing &&
              CountsOf(b).totalJobs == CountsOf(a).totalJobs + 1)
  {
    match FirstWithId(a.dlq, jobId)
    case None =>
    case Some(i) =>
      var revived := a.dlq[i].(state := Some(Pending), updatedAt := Some(now));
      CountAppend(a.jobs, revived, Pending);
      CountAppend(a.jobs, revived, Processing);
  }

  /** Jobs listed under a state and records counted under it agree when every record has a "state" key. */
  lemma {:induction false} ListAgreesWithCount(js: seq<Job>, s: seq<Record>, st: State)
    requires |js| == |s|
    requires forall k :: 0 <= k < |s| ==> s[k].state == Some(js[k].state)
    ensures |OfState(js, st)| == CountState(s, st)
  {
    if |s| > 0 {
      ListAgreesWithCount(js[1..], s[1..], st);
    }
  }

  /** `list_jobs(state)` has as many entries as `counts()` reports for that state. */
  lemma ListJobsMatchesCounts(a: Aggregate, ids: nat -> string, now: string)
    requires forall k :: 0 <= k < |a.jobs| ==> a.jobs[k].state.Some?
    ensures |ListJobs(a, Some(Pending), ids, now)| == CountsOf(a).pending
    ensures |ListJobs(a, Some(Processing), ids, now)| == CountsOf(a).processing
  {
    ListAgreesWithCount(Decode(a.jobs, ids, now), a.jobs, Pending);
    ListAgreesWithCount(Decode(a.jobs, ids, now), a.jobs, Processing);
  }

  /** Without a "state" key the two disagree: the record is listed as pending but not counted. */
  lemma ListJobsCountsMissingState(ids: nat -> string, now: string)
    ensures var a := Aggregate([Record(Some("j"), None, None, None, None, None, None)], []);
      |ListJobs(a, Some(Pending), ids, now)| == 1 && CountsOf(a).pending == 0
  {
    var a := Aggregate([Record(Some("j"), None, None, None, None, None, None)], []);
    var js := Decode(a.jobs, ids, now);
    assert OfState(js, Pending) == [js[0]] + OfState(js[1..], Pending);
  }

  // ---------------------------------------------------------------------------
  // Lemmas: claim

  /** The claim takes the lowest-index pending record, rewrites it at the same index and changes nothing else. */
  lemma ClaimTakesFirstPending(a: Aggregate, freshId: string, now: string, i: nat)
    requires i < |a.jobs| && IsPending(a.jobs[i])
    requires forall k :: 0 <= k < i ==> !IsPending(a.jobs[k])
    ensures var job := Claimed(a.jobs[i], freshId, now);
      Claim(a, freshId, now) == (a.(jobs := a.jobs[i := ToDict(job)]), Some(job))
  {
    var f := FirstPending(a.jobs);
    assert f.Some?;
  }

  /** For a well-formed record, the claimed record differs only in state and update time. */
  lemma ClaimedRecord(r: Record, freshId: string, now: string)
    requires HasAllKeys(r) && r.id.value != "" && r.createdAt.value != ""
    ensures ToDict(Claimed(r, freshId, now)) == r.(state := Some(Processing), updatedAt := Some(now))
  {
  }

  /**
   * A claimed record is no longer pending: a later claim takes a record strictly
   * further along `jobs`, or nothing.
   */
  lemma ClaimNeverRepeats(a: Aggregate, freshId1: string, now1: string, freshId2: string, now2: string)
    ensures var (b, r1) := Claim(a, freshId1, now1);
      r1.Some? ==>
        var i := FirstPending(a.jobs).value;
        !IsPending(b.jobs[i]) &&
        (Claim(b, freshId2, now2).1.None? || FirstPending(b.jobs).value > i)
  {
  }

  /** Two claims on a store with exactly one pending record: the first gets it, the second gets none. */
  lemma OnePendingClaimedOnce(a: Aggregate, freshId1: string, now1: string, freshId2: string, now2: string)
    requires CountState(a.jobs, Pending) == 1
    ensures var (b, r1) := Claim(a, freshId1, now1);
      r1.Some? && Claim(b, freshId2, now2).1.None?
  {
    var (b, r1) := Claim(a, freshId1, now1);
    ClaimCounts(a, freshId1, now1);
    assert CountState(b.jobs, Pending) == 0;
  }

  // ---------------------------------------------------------------------------
  // Lemmas: resolve and requeue

  /** When a record has the job's id, resolve acts on the first such record. */
  lemma ResolveFound(a: Aggregate, job: Job, success: bool, moveToDlq: bool, now: string, i: nat)
    requires i < |a.jobs| && HasId(a.jobs[i], job.id)
    requires forall k :: 0 <= k < i ==> !HasId(a.jobs[k], job.id)
    ensures var b := Resolve(a, job, success, moveToDlq, now);
      (success || moveToDlq ==> b.jobs == RemoveAt(a.jobs, i)) &&
      (!success && !moveToDlq ==> b.jobs == a.jobs[i := ToDict(job)])
  {
    var f := FirstWithId(a.jobs, job.id);
    assert f.Some?;
  }

  /** When no record has the job's id, resolve still never drops the outcome of a failure. */
  lemma ResolveAbsent(a: Aggregate, job: Job, success: bool, moveToDlq: bool, now: string)
    requires !ContainsId(a.jobs, job.id)
    ensures var b := Resolve(a, job, success, moveToDlq, now);
      (success ==> b == a) &&
      (!success && moveToDlq ==> b.jobs == a.jobs) &&
      (!success && !moveToDlq ==> b.jobs == a.jobs + [ToDict(job)])
  {
  }

  /** Requeue revives the first dead-letter record with the id: same record, same attempts, now pending. */
  lemma RequeueFound(a: Aggregate, jobId: string, now: string, i: nat)
    requires i < |a.dlq| && HasId(a.dlq[i], jobId)
    requires forall k :: 0 <= k < i ==> !HasId(a.dlq[k], jobId)
    ensures var (b, ok) := Requeue(a, jobId, now);
      ok &&
      b.dlq == RemoveAt(a.dlq, i) &&
      b.jobs == a.jobs + [a.dlq[i].(state := Some(Pending), updatedAt := Some(now))] &&
      b.jobs[|a.jobs|].attempts == a.dlq[i].attempts
  {
    var f := FirstWithId(a.dlq, jobId);
    assert f.Some?;
  }

  // ---------------------------------------------------------------------------
  // State discipline: `jobs` holds pending or processing records, `dlq` dead ones.

  ghost predicate Disciplined(a: Aggregate) {
    (forall k :: 0 <= k < |a.jobs| ==> a.jobs[k].state == Some(Pending) || a.jobs[k].state == Some(Processing)) &&
    (forall k :: 0 <= k < |a.dlq| ==> a.dlq[k].state == Some(Dead))
  }

  lemma EnqueuePreservesDiscipline(a: Aggregate, job: Job)
    requires Disciplined(a) && job.state == Pending
    ensures Disciplined(Enqueued(a, job))
  {
  }

  lemma ClaimPreservesDiscipline(a: Aggregate, freshId: string, now: string)
    requires Disciplined(a)
    ensures Disciplined(Claim(a, freshId, now).0)
  {
  }

  lemma ResolvePreservesDiscipline(a: Aggregate, job: Job, success: bool, moveToDlq: bool, now: string)
    requires Disciplined(a)
    requires !success && !moveToDlq ==> job.state == Pending || job.state == Processing
    ensures Disciplined(Resolve(a, job, success, moveToDlq, now))
  {
  }

  lemma RequeuePreservesDiscipline(a: Aggregate, jobId: string, now: string)
    requires Disciplined(a)
    ensures Disciplined(Requeue(a, jobId, now).0)
  {
  }

  lemma RemovePreservesDiscipline(a: Aggregate, jobId: string)
    requires Disciplined(a)
    ensures Disciplined(a.(dlq := Without(a.dlq, jobId)))
  {
    var r := Without(a.dlq, jobId);
    forall k | 0 <= k < |r|
      ensures r[k].state == Some(Dead)
    {
      assert r[k] in a.dlq;
    }
  }
}

=== FILE: worker.dfy ===
/**
 * One worker of queue_ctl.py (`run_worker_loop`): each cycle checks the stop
 * marker, claims a job, runs its command and resolves the outcome in the store,
 * applying the retry ceiling and the exponential backoff. The stop marker, the
 * command's result, the uuid and the clock arrive as inputs (a `Tick` per cycle);
 * the backoff sleep is returned as a delay instead of being slept.
 */
module Worker {
  import opened Wrappers
  import opened Jobs
  import opened StoreSpec
  import opened Store

  /** What running the command reported: an exit status, or an exception while launching it. */
  datatype RunResult = Exited(code: int) | LaunchError

  /** The inputs a cycle consumes. */
  datatype Tick = Tick(stop: bool, run: RunResult, freshId: string, now: string)

  /** How a claimed job was resolved. `Retry` carries the backoff delay slept afterwards. */
  datatype Verdict = Done | Retry(delay: nat) | DeadLetter

  /** What a cycle did: exited on the stop marker, found no pending job (idle sleep), or resolved one. */
  datatype CycleResult = Stopped | Idle | Resolved(id: string, verdict: Verdict)

  /** `proc.returncode == 0`; a launch exception is a failure. */
  predicate Succeeded(r: RunResult) {
    r.Exited? && r.code == 0
  }

  /** The effective retry ceiling: the job's own `max_retries` unless it is None. */
  function Ceiling(job: Job, defaultMaxRetries: int): (m: int)
    ensures job.maxRetries.Some? ==> m == job.maxRetries.value
    ensures job.maxRetries.None? ==> m == defaultMaxRetries
  {
    job.maxRetries.GetOr(defaultMaxRetries)
  }

  /** `base ** e` for a natural base. */
  function Pow(base: nat, e: nat): (p: nat)
    ensures base >= 1 ==> p >= 1
  {
    if e == 0 then 1 else base * Pow(base, e - 1)
  }

  /** Each further attempt multiplies the backoff by the base. */
  lemma PowStep(base: nat, e: nat)
    ensures Pow(base, e + 1) == base * Pow(base, e)
  {
  }

  /**
   * Steps 3 to 6 of a cycle for a claimed job: the job as the worker leaves it and
   * how it is resolved. Success leaves `attempts` alone; a failure adds one, and
   * dead-letters the job once `attempts` reaches the ceiling.
   */
  function Decide(job: Job, run: RunResult, defaultMaxRetries: int, backoffBase: nat, now: string): (res: (Job, Verdict))
    ensures res.0.id == job.id && res.0.command == job.command && res.0.maxRetries == job.maxRetries
    ensures res.0.createdAt == job.createdAt && res.0.updatedAt == now
    ensures res.1.Done? <==> Succeeded(run)
    ensures Succeeded(run) ==> res.0.attempts == job.attempts && res.0.state == Completed
    ensures !Succeeded(run) ==> res.0.attempts == job.attempts + 1
    ensures res.1.DeadLetter? <==> !Succeeded(run) && res.0.attempts >= Ceiling(job, defaultMaxRetries)
    ensures res.1.DeadLetter? ==> res.0.state == job.state
    ensures res.1.Retry? ==> res.0.state == Pending && res.1.delay == Pow(backoffBase, res.0.attempts - 1)
  {
    if Succeeded(run) then
      (job.(state := Completed, updatedAt := now), Done)
    else
      var failed := job.(attempts := job.attempts + 1, updatedAt := now);
      if failed.attempts >= Ceiling(job, defaultMaxRetries) then
        (failed, DeadLetter)
      else
        (failed.(state := Pending), Retry(Pow(backoffBase, failed.attempts - 1)))
  }

  /** One cycle as a transition of the aggregate. */
  function Cycle(a: Aggregate, t: Tick, backoffBase: nat, defaultMaxRetries: int): (res: (Aggregate, CycleResult))
    ensures t.stop ==> res == (a, Stopped)
    ensures res.1.Idle? <==> !t.stop && forall k :: 0 <= k < |a.jobs| ==> !IsPending(a.jobs[k])
    ensures res.1.Idle? ==> res.0 == a
    ensures res.1.Resolved? && !res.1.verdict.DeadLetter? ==> res.0.dlq == a.dlq
    ensures res.1.Resolved? && res.1.verdict.DeadLetter? ==> |res.0.dlq| == |a.dlq| + 1
  {
    if t.stop then (a, Stopped)
    else
      var (claimedAgg, claimed) := Claim(a, t.freshId, t.now);
      match claimed
      case None => (claimedAgg, Idle)
      case Some(job) =>
        var (worked, verdict) := Decide(job, t.run, defaultMaxRetries, backoffBase, t.now);
        var b := match verdict
          case Done => Resolve(claimedAgg, worked, true, false, t.now)
          case DeadLetter => Resolve(claimedAgg, worked, false, true, t.now)
          case Retry(_) => Resolve(claimedAgg, worked, false, false, t.now);
        (b, Resolved(job.id, verdict))
  }

  /** Cycles over a schedule of ticks, up to and including the first one that sees the stop marker. */
  function Run(a: Aggregate, ticks: seq<Tick>, backoffBase: nat, defaultMaxRetries: int): (res: (Aggregate, seq<CycleResult>))
    ensures |res.1| <= |ticks|
    decreases |ticks|
  {
    if |ticks| == 0 then (a, [])
    else
      var (b, r) := Cycle(a, ticks[0], backoffBase, defaultMaxRetries);
      if r.Stopped? then (b, [r])
      else
        var (c, rs) := Run(b, ticks[1..], backoffBase, defaultMaxRetries);
        assert forall k :: 1 <= k < |ticks| ==> ticks[k] == ticks[1..][k - 1];
        (c, [r] + rs)
  }

  /** One cycle against the store, changing the job step by step as the loop body does. */
  method RunCycle(store: JobStore, t: Tick, backoffBase: nat, defaultMaxRetries: int) returns (result: CycleResult)
    modifies store
    ensures (store.Model(), result) == Cycle(old(store.Model()), t, backoffBase, defaultMaxRetries)
  {
    if t.stop {
      return Stopped;
    }
    var claimed := store.ClaimJob(t.freshId, t.now);
    if claimed.None? {
      return Idle;
    }
    var job := claimed.value;
    var jobMax := Ceiling(job, defaultMaxRetries);
    if Succeeded(t.run) {
      job := job.(state := Completed, updatedAt := t.now);
      store.UpdateJobAfterRun(job, true, false, t.now);
      return Resolved(job.id, Done);
    }
    job := job.(attempts := job.attempts + 1, updatedAt := t.now);
    if job.attempts >= jobMax {
      store.UpdateJobAfterRun(job, false, true, t.now);
      return Resolved(job.id, DeadLetter);
    }
    var delay := Pow(backoffBase, job.attempts - 1);
    job := job.(state := Pending);
    store.UpdateJobAfterRun(job, false, false, t.now);
    return Resolved(job.id, Retry(delay));
  }

  /** `run_worker_loop` over a finite schedule: it stops at the first tick that sees the stop marker. */
  method RunWorkerLoop(store: JobStore, ticks: seq<Tick>, backoffBase: nat, defaultMaxRetries: int)
    returns (results: seq<CycleResult>)
    modifies store
    ensures (store.Model(), results) == Run(old(store.Model()), ticks, backoffBase, defaultMaxRetries)
  {
    results := [];
    var i := 0;
    assert ticks[i..] == ticks;
    assert results + Run(store.Model(), ticks, backoffBase, defaultMaxRetries).1
        == Run(store.Model(), ticks, backoffBase, defaultMaxRetries).1;
    while i < |ticks|
      invariant i <= |ticks|
      invariant Run(old(store.Model()), ticks, backoffBase, defaultMaxRetries).0
             == Run(store.Model(), ticks[i..], backoffBase, defaultMaxRetries).0
      invariant Run(old(store.Model()), ticks, backoffBase, defaultMaxRetries).1
             == results + Run(store.Model(), ticks[i..], backoffBase, defaultMaxRetries).1
    {
      ghost var before := store.Model();
      var r := RunCycle(store, ticks[i], backoffBase, defaultMaxRetries);
      assert ticks[i..][0] == ticks[i] && ticks[i..][1..] == ticks[i + 1..];
      results := results + [r];
      if r.Stopped? {
        assert Run(before, ticks[i..], backoffBase, defaultMaxRetries) == (store.Model(), [r]);
        return;
      }
      assert Run(before, ticks[i..], backoffBase, defaultMaxRetries)
          == (Run(store.Model(), ticks[i + 1..], backoffBase, defaultMaxRetries).0,
              [r] + Run(store.Model(), ticks[i + 1..], backoffBase, defaultMaxRetries).1);
      i := i + 1;
    }
    assert ticks[i..] == [];
    assert results + [] == results;
  }

  /**
   * The loop runs one cycle per tick up to and including the first tick that sees
   * the stop marker, and no further: only the last reported cycle may be `Stopped`,
   * and fewer cycles than ticks means the last one stopped.
   */
  lemma {:induction false} RunStopsAtMarker(a: Aggregate, ticks: seq<Tick>, backoffBase: nat, defaultMaxRetries: int)
    decreases |ticks|
    ensures var results := Run(a, ticks, backoffBase, defaultMaxRetries).1;
      (forall k :: 0 <= k < |results| ==> (results[k].Stopped? <==> ticks[k].stop)) &&
      (forall k :: 0 <= k < |results| && ticks[k].stop ==> |results| == k + 1) &&
      (|results| < |ticks| ==> |results| > 0 && ticks[|results| - 1].stop)
  {
    if |ticks| > 0 && !ticks[0].stop {
      var (b, r) := Cycle(a, ticks[0], backoffBase, defaultMaxRetries);
      RunStopsAtMarker(b, ticks[1..], backoffBase, defaultMaxRetries);
      RunUnfold(a, ticks, backoffBase, defaultMaxRetries);
      var rs := Run(b, ticks[1..], backoffBase, defaultMaxRetries).1;
      forall k | 1 <= k < 1 + |rs|
        ensures ([r] + rs)[k] == rs[k - 1] && ticks[k] == ticks[1..][k - 1]
      {
      }
    }
  }

  // ---------------------------------------------------------------------------
  // The retry policy over consecutive failures

  /** Every tick is a failing cycle: no stop marker and a command that does not succeed. */
  predicate AllFail(ticks: seq<Tick>) {
    forall k :: 0 <= k < |ticks| ==> !ticks[k].stop && !Succeeded(ticks[k].run)
  }

  /**
   * The records ahead of a job in `jobs`: none is pending and none carries its id,
   * so both the claim's scan and the resolve's scan reach the job first.
   */
  predicate ClearAhead(ahead: seq<Record>, id: string) {
    forall k :: 0 <= k < |ahead| ==> !IsPending(ahead[k]) && !HasId(ahead[k], id)
  }

  /** Index facts about a record placed between `ahead` and `behind`. */
  lemma Splice(ahead: seq<Record>, x: Record, y: Record, behind: seq<Record>)
    ensures |ahead + [x] + behind| == |ahead| + 1 + |behind|
    ensures (ahead + [x] + behind)[|ahead|] == x
    ensures (ahead + [x] + behind)[..|ahead|] == ahead
    ensures (ahead + [x] + behind)[|ahead| := y] == ahead + [y] + behind
    ensures RemoveAt(ahead + [x] + behind, |ahead|) == ahead + behind
  {
    var s := ahead + [x] + behind;
    assert s[..|ahead|] == ahead;
    assert s[|ahead| + 1..] == behind;
  }

  /**
   * One cycle on a job whose record is at index `i`, behind records that are neither
   * pending nor carry its id: the claim and the resolve both land at `i`. A retry
   * overwrites the record there, success removes it, and dead-lettering removes it
   * and appends the job, dead, to `dlq`.
   */
  lemma CycleAt(a: Aggregate, i: nat, j: Job, t: Tick, backoffBase: nat, defaultMaxRetries: int)
    requires i < |a.jobs| && a.jobs[i] == ToDict(j)
    requires j.state == Pending && j.id != "" && j.createdAt != ""
    requires ClearAhead(a.jobs[..i], j.id)
    requires !t.stop
    ensures var (worked, verdict) := Decide(j.(state := Processing, updatedAt := t.now), t.run, defaultMaxRetries, backoffBase, t.now);
      Cycle(a, t, backoffBase, defaultMaxRetries)
      == (if verdict.Retry? then a.(jobs := a.jobs[i := ToDict(worked)])
          else if verdict.Done? then a.(jobs := RemoveAt(a.jobs, i))
          else Aggregate(RemoveAt(a.jobs, i), a.dlq + [ToDict(worked.(state := Dead, updatedAt := t.now))]),
          Resolved(j.id, verdict))
  {
    var job := Claimed(ToDict(j), t.freshId, t.now);
    assert job == j.(state := Processing, updatedAt := t.now);
    assert forall k :: 0 <= k < i ==> a.jobs[..i][k] == a.jobs[k];
    ClaimTakesFirstPending(a, t.freshId, t.now, i);
    var claimed := a.jobs[i := ToDict(job)];
    assert claimed[..i] == a.jobs[..i] && claimed[i + 1..] == a.jobs[i + 1..];
    var (worked, verdict) := Decide(job, t.run, defaultMaxRetries, backoffBase, t.now);
    assert claimed[i := ToDict(worked)] == a.jobs[i := ToDict(worked)];
    ResolveFound(a.(jobs := claimed), worked, verdict.Done?, verdict.DeadLetter?, t.now, i);
  }

  /** A failing cycle below the ceiling leaves the job in place, pending, with one more attempt. */
  lemma RetriedInPlace(j: Job, t: Tick, ahead: seq<Record>, behind: seq<Record>, dead: seq<Record>,
                       backoffBase: nat, defaultMaxRetries: int)
    requires j.state == Pending && j.id != "" && j.createdAt != ""
    requires ClearAhead(ahead, j.id)
    requires !t.stop && !Succeeded(t.run)
    requires j.attempts + 1 < Ceiling(j, defaultMaxRetries)
    ensures Cycle(Aggregate(ahead + [ToDict(j)] + behind, dead), t, backoffBase, defaultMaxRetries)
         == (Aggregate(ahead + [ToDict(j.(attempts := j.attempts + 1, updatedAt := t.now))] + behind, dead),
             Resolved(j.id, Retry(Pow(backoffBase, j.attempts))))
  {
    var retried := j.(attempts := j.attempts + 1, updatedAt := t.now);
    assert Decide(j.(state := Processing, updatedAt := t.now), t.run, defaultMaxRetries, backoffBase, t.now)
        == (retried, Retry(Pow(backoffBase, j.attempts)));
    Splice(ahead, ToDict(j), ToDict(retried), behind);
    CycleAt(Aggregate(ahead + [ToDict(j)] + behind, dead), |ahead|, j, t, backoffBase, defaultMaxRetries);
  }

  /** The failing cycle that reaches the ceiling moves the job, dead, to the end of `dlq`. */
  lemma DeadLettered(j: Job, t: Tick, ahead: seq<Record>, behind: seq<Record>, dead: seq<Record>,
                     backoffBase: nat, defaultMaxRetries: int)
    requires j.state == Pending && j.id != "" && j.createdAt != ""
    requires ClearAhead(ahead, j.id)
    requires !t.stop && !Succeeded(t.run)
    requires j.attempts + 1 >= Ceiling(j, defaultMaxRetries)
    ensures Cycle(Aggregate(ahead + [ToDict(j)] + behind, dead), t, backoffBase, defaultMaxRetries)
         == (Aggregate(ahead + behind, dead + [ToDict(j.(attempts := j.attempts + 1, updatedAt := t.now, state := Dead))]),
             Resolved(j.id, DeadLetter))
  {
    var failed := j.(state := Processing, updatedAt := t.now, attempts := j.attempts + 1);
    assert Decide(j.(state := Processing, updatedAt := t.now), t.run, defaultMaxRetries, backoffBase, t.now)
        == (failed, DeadLetter);
    assert failed.(state := Dead, updatedAt := t.now) == j.(attempts := j.attempts + 1, updatedAt := t.now, state := Dead);
    Splice(ahead, ToDict(j), ToDict(j), behind);
    CycleAt(Aggregate(ahead + [ToDict(j)] + behind, dead), |ahead|, j, t, backoffBase, defaultMaxRetries);
  }

  /** Unfolds the first cycle of a run that does not stop there. */
  lemma RunUnfold(a: Aggregate, ticks: seq<Tick>, backoffBase: nat, defaultMaxRetries: int)
    requires |ticks| > 0 && !ticks[0].stop
    ensures var (b, r) := Cycle(a, ticks[0], backoffBase, defaultMaxRetries);
      var (c, rs) := Run(b, ticks[1..], backoffBase, defaultMaxRetries);
      Run(a, ticks, backoffBase, defaultMaxRetries) == (c, [r] + rs)
  {
  }

  /**
   * The retry policy on its own: what consecutive failures of one job do to the
   * store around it, computed from the ceiling and the backoff alone. Each failure
   * adds an attempt; the one that reaches the ceiling moves the job to the end of
   * `dlq`, and every earlier one leaves it in place, retried after `base ** (attempts - 1)`.
   */
  function Failures(j: Job, ticks: seq<Tick>, ahead: seq<Record>, behind: seq<Record>, dead: seq<Record>,
                    backoffBase: nat, defaultMaxRetries: int): (res: (Aggregate, seq<CycleResult>))
    ensures |res.1| <= |ticks|
    ensures |res.0.jobs| + |res.0.dlq| == |ahead| + 1 + |behind| + |dead|
    decreases |ticks|
  {
    if |ticks| == 0 then (Aggregate(ahead + [ToDict(j)] + behind, dead), [])
    else
      var j1 := j.(attempts := j.attempts + 1, updatedAt := ticks[0].now);
      if j1.attempts >= Ceiling(j, defaultMaxRetries) then
        (Aggregate(ahead + behind, dead + [ToDict(j1.(state := Dead))]), [Resolved(j.id, DeadLetter)])
      else
        var (c, rs) := Failures(j1, ticks[1..], ahead, behind, dead, backoffBase, defaultMaxRetries);
        (c, [Resolved(j.id, Retry(Pow(backoffBase, j.attempts)))] + rs)
  }

  lemma AllFailTail(ticks: seq<Tick>)
    requires AllFail(ticks) && 1 <= |ticks|
    ensures AllFail(ticks[1..])
  {
    assert forall k :: 0 <= k < |ticks| - 1 ==> ticks[1..][k] == ticks[k + 1];
  }

  /** A run whose first cycle is known: that cycle's outcome, followed by the run from the state it leaves. */
  lemma RunCons(a: Aggregate, ticks: seq<Tick>, b: Aggregate, r: CycleResult, rest: (Aggregate, seq<CycleResult>),
                backoffBase: nat, defaultMaxRetries: int)
    requires |ticks| > 0 && !ticks[0].stop
    requires Cycle(a, ticks[0], backoffBase, defaultMaxRetries) == (b, r)
    requires Run(b, ticks[1..], backoffBase, defaultMaxRetries) == rest
    ensures Run(a, ticks, backoffBase, defaultMaxRetries) == (rest.0, [r] + rest.1)
  {
  }

  /** Below the ceiling, `Failures` reports a retry and carries on with one more attempt. */
  lemma FailuresCons(j: Job, ticks: seq<Tick>, ahead: seq<Record>, behind: seq<Record>, dead: seq<Record>,
                     backoffBase: nat, defaultMaxRetries: int)
    requires |ticks| > 0 && j.attempts + 1 < Ceiling(j, defaultMaxRetries)
    ensures var j1 := j.(attempts := j.attempts + 1, updatedAt := ticks[0].now);
      var rest := Failures(j1, ticks[1..], ahead, behind, dead, backoffBase, defaultMaxRetries);
      Failures(j, ticks, ahead, behind, dead, backoffBase, defaultMaxRetries)
      == (rest.0, [Resolved(j.id, Retry(Pow(backoffBase, j.attempts)))] + rest.1)
  {
  }

  /**
   * The worker loop agrees with the retry policy: with the job's record behind
   * records that are neither pending nor carry its id, a schedule of failing cycles
   * that ends no later than the dead-lettering failure produces exactly what
   * `Failures` computes.
   */
  lemma {:induction false} FailuresAgree(j: Job, ticks: seq<Tick>, ahead: seq<Record>, behind: seq<Record>, dead: seq<Record>,
                                         backoffBase: nat, defaultMaxRetries: int)
    requires j.state == Pending && j.id != "" && j.createdAt != ""
    requires ClearAhead(ahead, j.id)
    requires AllFail(ticks)
    requires |ticks| <= 1 || j.attempts + |ticks| <= Ceiling(j, defaultMaxRetries)
    decreases |ticks|
    ensures Run(Aggregate(ahead + [ToDict(j)] + behind, dead), ticks, backoffBase, defaultMaxRetries)
         == Failures(j, ticks, ahead, behind, dead, backoffBase, defaultMaxRetries)
  {
    if |ticks| == 0 {
    } else if j.attempts + 1 >= Ceiling(j, defaultMaxRetries) {
      var b := Aggregate(ahead + behind, dead + [ToDict(j.(attempts := j.attempts + 1, updatedAt := ticks[0].now, state := Dead))]);
      DeadLettered(j, ticks[0], ahead, behind, dead, backoffBase, defaultMaxRetries);
      assert ticks[1..] == [];
      RunCons(Aggregate(ahead + [ToDict(j)] + behind, dead), ticks, b, Resolved(j.id, DeadLetter), (b, []),
              backoffBase, defaultMaxRetries);
      assert [Resolved(j.id, DeadLetter)] + [] == [Resolved(j.id, DeadLetter)];
    } else {
      var j1 := j.(attempts := j.attempts + 1, updatedAt := ticks[0].now);
      AllFailTail(ticks);
      FailuresAgree(j1, ticks[1..], ahead, behind, dead, backoffBase, defaultMaxRetries);
      RetriedInPlace(j, ticks[0], ahead, behind, dead, backoffBase, defaultMaxRetries);
      RunCons(Aggregate(ahead + [ToDict(j)] + behind, dead), ticks, Aggregate(ahead + [ToDict(j1)] + behind, dead),
              Resolved(j.id, Retry(Pow(backoffBase, j.attempts))),
              Failures(j1, ticks[1..], ahead, behind, dead, backoffBase, defaultMaxRetries), backoffBase, defaultMaxRetries);
      FailuresCons(j, ticks, ahead, behind, dead, backoffBase, defaultMaxRetries);
    }
  }

  /** Fewer failures than the ceiling allows: the job stays in place, pending, with one more attempt per failure. */
  lemma {:induction false} FailuresBelowCeiling(j: Job, ticks: seq<Tick>, ahead: seq<Record>, behind: seq<Record>, dead: seq<Record>,
                                                backoffBase: nat, defaultMaxRetries: int)
    requires 1 <= |ticks| && j.attempts + |ticks| < Ceiling(j, defaultMaxRetries)
    decreases |ticks|
    ensures Failures(j, ticks, ahead, behind, dead, backoffBase, defaultMaxRetries).0
         == Aggregate(ahead + [ToDict(j.(attempts := j.attempts + |ticks|, updatedAt := ticks[|ticks| - 1].now))] + behind, dead)
  {
    var j1 := j.(attempts := j.attempts + 1, updatedAt := ticks[0].now);
    if |ticks| > 1 {
      FailuresBelowCeiling(j1, ticks[1..], ahead, behind, dead, backoffBase, defaultMaxRetries);
      assert ticks[1..][|ticks| - 2] == ticks[|ticks| - 1];
    }
  }

  /** The failure that brings the attempts to the ceiling removes the job from `jobs` and appends it, dead, to `dlq`. */
  lemma {:induction false} FailuresAtCeiling(j: Job, ticks: seq<Tick>, ahead: seq<Record>, behind: seq<Record>, dead: seq<Record>,
                                             backoffBase: nat, defaultMaxRetries: int)
    requires 1 <= |ticks| && j.attempts + |ticks| == Ceiling(j, defaultMaxRetries)
    decreases |ticks|
    ensures Failures(j, ticks, ahead, behind, dead, backoffBase, defaultMaxRetries).0
         == Aggregate(ahead + behind,
                      dead + [ToDict(j.(state := Dead, attempts := j.attempts + |ticks|, updatedAt := ticks[|ticks| - 1].now))])
  {
    var j1 := j.(attempts := j.attempts + 1, updatedAt := ticks[0].now);
    if |ticks| > 1 {
      FailuresAtCeiling(j1, ticks[1..], ahead, behind, dead, backoffBase, defaultMaxRetries);
      assert ticks[1..][|ticks| - 2] == ticks[|ticks| - 1];
    }
  }

  /**
   * The cycle results of failures up to the ceiling: the k-th failure is retried
   * after `base ** (attempts + k)` unless it reaches the ceiling, which dead-letters.
   */
  lemma {:induction false} FailuresVerdicts(j: Job, ticks: seq<Tick>, ahead: seq<Record>, behind: seq<Record>, dead: seq<Record>,
                                            backoffBase: nat, defaultMaxRetries: int)
    requires j.attempts + |ticks| <= Ceiling(j, defaultMaxRetries)
    decreases |ticks|
    ensures var results := Failures(j, ticks, ahead, behind, dead, backoffBase, defaultMaxRetries).1;
      |results| == |ticks| &&
      forall k :: 0 <= k < |ticks| ==>
        results[k] == Resolved(j.id,
          if j.attempts + k + 1 < Ceiling(j, defaultMaxRetries) then Retry(Pow(backoffBase, j.attempts + k))
          else DeadLetter)
  {
    if |ticks| > 0 && j.attempts + 1 < Ceiling(j, defaultMaxRetries) {
      var j1 := j.(attempts := j.attempts + 1, updatedAt := ticks[0].now);
      FailuresVerdicts(j1, ticks[1..], ahead, behind, dead, backoffBase, defaultMaxRetries);
      var r := Resolved(j.id, Retry(Pow(backoffBase, j.attempts)));
      var rs := Failures(j1, ticks[1..], ahead, behind, dead, backoffBase, defaultMaxRetries).1;
      forall k | 1 <= k < |ticks|
        ensures ([r] + rs)[k] == rs[k - 1]
      {
      }
    }
  }

  /**
   * The bounded-retry property. Take a pending job with `a` attempts and ceiling M,
   * whose record sits in `jobs` behind records that are neither pending nor carry
   * its id, with any records behind it and any `dlq`. If its command fails in n
   * consecutive cycles: while a + n < M it stays where it is, pending, with
   * attempts a + n, and nothing else changes; the failure that brings the attempts
   * to M removes it from `jobs` and appends it to `dlq`, dead, with attempts M.
   * When the ceiling is already reached (M <= a + 1, which includes M <= 0) the
   * first failure dead-letters it.
   */
  lemma BoundedRetry(j: Job, ticks: seq<Tick>, ahead: seq<Record>, behind: seq<Record>, dead: seq<Record>,
                     backoffBase: nat, defaultMaxRetries: int)
    requires j.state == Pending && j.id != "" && j.createdAt != ""
    requires ClearAhead(ahead, j.id)
    requires AllFail(ticks) && 1 <= |ticks|
    ensures var m := Ceiling(j, defaultMaxRetries);
      var last := ticks[|ticks| - 1].now;
      var final := Run(Aggregate(ahead + [ToDict(j)] + behind, dead), ticks, backoffBase, defaultMaxRetries).0;
      (j.attempts + |ticks| < m ==>
         final == Aggregate(ahead + [ToDict(j.(attempts := j.attempts + |ticks|, updatedAt := last))] + behind, dead)) &&
      (j.attempts + |ticks| == m || (|ticks| == 1 && m <= j.attempts + 1) ==>
         final == Aggregate(ahead + behind,
                            dead + [ToDict(j.(state := Dead, attempts := j.attempts + |ticks|, updatedAt := last))]))
  {
    var m := Ceiling(j, defaultMaxRetries);
    if j.attempts + |ticks| < m {
      FailuresAgree(j, ticks, ahead, behind, dead, backoffBase, defaultMaxRetries);
      FailuresBelowCeiling(j, ticks, ahead, behind, dead, backoffBase, defaultMaxRetries);
    } else if j.attempts + |ticks| == m {
      FailuresAgree(j, ticks, ahead, behind, dead, backoffBase, defaultMaxRetries);
      FailuresAtCeiling(j, ticks, ahead, behind, dead, backoffBase, defaultMaxRetries);
    } else if |ticks| == 1 {
      FailuresAgree(j, ticks, ahead, behind, dead, backoffBase, defaultMaxRetries);
    }
  }

  /**
   * The exponential backoff over the same failures: the k-th failure (from 0) is
   * reported as a retry with delay `base ** (a + k)`, so a new job sleeps 1, b, b^2,
   * ... between attempts, except the failure that reaches the ceiling, reported as
   * dead-lettered.
   */
  lemma BackoffDelays(j: Job, ticks: seq<Tick>, ahead: seq<Record>, behind: seq<Record>, dead: seq<Record>,
                      backoffBase: nat, defaultMaxRetries: int)
    requires j.state == Pending && j.id != "" && j.createdAt != ""
    requires ClearAhead(ahead, j.id)
    requires AllFail(ticks) && j.attempts + |ticks| <= Ceiling(j, defaultMaxRetries)
    ensures var results := Run(Aggregate(ahead + [ToDict(j)] + behind, dead), ticks, backoffBase, defaultMaxRetries).1;
      |results| == |ticks| &&
      forall k :: 0 <= k < |ticks| ==>
        results[k] == Resolved(j.id,
          if j.attempts + k + 1 < Ceiling(j, defaultMaxRetries) then Retry(Pow(backoffBase, j.attempts + k))
          else DeadLetter)
  {
    FailuresAgree(j, ticks, ahead, behind, dead, backoffBase, defaultMaxRetries);
    FailuresVerdicts(j, ticks, ahead, behind, dead, backoffBase, defaultMaxRetries);
  }

  /**
   * Consecutive retries of the same job wait `base` times longer each time:
   * the delays form the geometric sequence 1, b, b^2, ... from the job's attempts.
   */
  lemma BackoffGrows(j: Job, ticks: seq<Tick>, ahead: seq<Record>, behind: seq<Record>, dead: seq<Record>,
                     backoffBase: nat, defaultMaxRetries: int, k: nat)
    requires j.state == Pending && j.id != "" && j.createdAt != ""
    requires ClearAhead(ahead, j.id)
    requires AllFail(ticks) && j.attempts + |ticks| <= Ceiling(j, defaultMaxRetries)
    requires k + 1 < |ticks| && j.attempts + k + 2 < Ceiling(j, defaultMaxRetries)
    ensures var results := Run(Aggregate(ahead + [ToDict(j)] + behind, dead), ticks, backoffBase, defaultMaxRetries).1;
      k + 1 < |results| && results[k].Resolved? && results[k].verdict.Retry? &&
      results[k + 1].Resolved? && results[k + 1].verdict.Retry? &&
      results[k + 1].verdict.delay == backoffBase * results[k].verdict.delay
  {
    BackoffDelays(j, ticks, ahead, behind, dead, backoffBase, defaultMaxRetries);
    PowStep(backoffBase, j.attempts + k);
  }

  /** A new job with `max_retries` 2, alone in the store, whose command fails twice ends dead-lettered with attempts 2. */
  lemma TwoFailuresWithCeilingTwo(j: Job, t1: Tick, t2: Tick, backoffBase: nat, defaultMaxRetries: int)
    requires j.state == Pending && j.attempts == 0 && j.maxRetries == Some(2)
    requires j.id != "" && j.createdAt != ""
    requires !t1.stop && !Succeeded(t1.run) && !t2.stop && !Succeeded(t2.run)
    ensures Run(Aggregate([ToDict(j)], []), [t1, t2], backoffBase, defaultMaxRetries).0
         == Aggregate([], [ToDict(j.(state := Dead, attempts := 2, updatedAt := t2.now))])
  {
    assert [] + [ToDict(j)] + [] == [ToDict(j)];
    BoundedRetry(j, [t1, t2], [], [], [], backoffBase, defaultMaxRetries);
    assert [] + [ToDict(j.(state := Dead, attempts := 2, updatedAt := t2.now))]
        == [ToDict(j.(state := Dead, attempts := 2, updatedAt := t2.now))];
  }

  /** A new job with `max_retries` 3, alone in the store, whose command fails once is pending again with attempts 1. */
  lemma OneFailureWithCeilingThree(j: Job, t: Tick, backoffBase: nat, defaultMaxRetries: int)
    requires j.state == Pending && j.attempts == 0 && j.maxRetries == Some(3)
    requires j.id != "" && j.createdAt != ""
    requires !t.stop && !Succeeded(t.run)
    ensures Run(Aggregate([ToDict(j)], []), [t], backoffBase, defaultMaxRetries)
         == (Aggregate([ToDict(j.(attempts := 1, updatedAt := t.now))], []), [Resolved(j.id, Retry(1))])
  {
    assert [] + [ToDict(j)] + [] == [ToDict(j)];
    BoundedRetry(j, [t], [], [], [], backoffBase, defaultMaxRetries);
    BackoffDelays(j, [t], [], [], [], backoffBase, defaultMaxRetries);
    assert [] + [ToDict(j.(attempts := 1, updatedAt := t.now))] + [] == [ToDict(j.(attempts := 1, updatedAt := t.now))];
    var results := Run(Aggregate([ToDict(j)], []), [t], backoffBase, defaultMaxRetries).1;
    assert Pow(backoffBase, 0) == 1;
    assert results == [results[0]];
  }

  /**
   * A job whose command succeeds is removed from `jobs` and leaves no trace in `dlq`;
   * the records around it are untouched.
   */
  lemma SuccessForgetsJob(j: Job, t: Tick, ahead: seq<Record>, behind: seq<Record>, dead: seq<Record>,
                          backoffBase: nat, defaultMaxRetries: int)
    requires j.state == Pending && j.id != "" && j.createdAt != ""
    requires ClearAhead(ahead, j.id)
    requires !t.stop && Succeeded(t.run)
    ensures Cycle(Aggregate(ahead + [ToDict(j)] + behind, dead), t, backoffBase, defaultMaxRetries)
         == (Aggregate(ahead + behind, dead), Resolved(j.id, Done))
  {
    Splice(ahead, ToDict(j), ToDict(j), behind);
    CycleAt(Aggregate(ahead + [ToDict(j)] + behind, dead), |ahead|, j, t, backoffBase, defaultMaxRetries);
  }

  /** A cycle keeps pending and processing records in `jobs` and dead ones in `dlq`. */
  lemma CyclePreservesDiscipline(a: Aggregate, t: Tick, backoffBase: nat, defaultMaxRetries: int)
    requires Disciplined(a)
    ensures Disciplined(Cycle(a, t, backoffBase, defaultMaxRetries).0)
  {
    if !t.stop {
      var (claimedAgg, claimed) := Claim(a, t.freshId, t.now);
      ClaimPreservesDiscipline(a, t.freshId, t.now);
      if claimed.Some? {
        var (worked, verdict) := Decide(claimed.value, t.run, defaultMaxRetries, backoffBase, t.now);
        ResolvePreservesDiscipline(claimedAgg, worked, verdict.Done?, verdict.DeadLetter?, t.now);
      }
    }
  }
}

=== FILE: wrappers.dfy ===
/** An optional value: stands for Python's `None` and for a dictionary key that is absent. */
module Wrappers {

  datatype Option<+T> = None | Some(value: T) {

    /** The value, or `default` when absent (Python's `d.get(key, default)`). */
    function GetOr(default: T): T {
      match this
      case Some(v) => v
      case None => default
    }
  }
}
